=== FILE: README.md ===
# Matterbridge relay for ServUO, modelled in Dafny

`Scripts/Custom/Matterbridge.cs` connects a chat channel of a ServUO shard
to a Matterbridge hub. At start-up it reads `key=value` settings. It then
polls the hub's `GET /api/messages` and shows each message to the players of
the bound channel, or to the whole world when the binding is `*`. In the
other direction it posts channel chat, and optionally players' ambient
speech, to `POST /api/message`.

This project models the deterministic core of that file:

- `wrappers.dfy`: `Option` (a C# null) and `Result` (a value or the exception raised).
- `text.dfy`: the .NET string operations the relay depends on, each with its inverse or an independent characterisation:
  - `String.Split(char)`, with `Join`;
  - ordinal `StartsWith` and `Contains`;
  - `ToLower` on ASCII letters;
  - the decimal rendering of an `int`, with `ParseInt` to read it back.
- `messages.dfy`: `MatterbridgeMessage` and `MatterbridgePostMessage` as datatypes whose string properties may be null, with both `ToString` overrides and the post-message constructor.
- `config.dfy`: `MatterbridgeConfig` as a class whose `vars` map is the source's `m_Vars` dictionary.
  - `Load` is the constructor's reading loop over the lines of the file. It is proved against the specification function `ParseLines`.
  - The accessors: the dictionary indexer `Get`, `IsBooleanKeyEnabled` and `TargetUri`.
- `relay.dfy`: the static `Matterbridge` class:
  - the start-up decisions of `Configure`;
  - `FormatMessageForMatterbridge` and the speech source text;
  - the handlers `OnServUOChatReceived`, the speech handler and `BlockGeneralAtLogin`;
  - `OnMatterbridgeMessageReceived`, with its send loop over the channel's users;
  - the body of `Listen`'s polling loop, and the loop itself over a finite run of polls.

The game server is represented by values:
- what goes in: channel members (a map from channel name to users), mobiles, and the presence of the remote-admin relay (a boolean);
- what comes out: `Delivery` (`Send` to one user or `Broadcast` to the world), `HubPost`, `LocalRelay` and console `LogEntry` values.

What the code does and does not do:
- There is no placeholder template engine. `FormatMessageForMatterbridge` has two fixed shapes, chosen by the boolean key `SimpleMessages`. No `MessageFormat` key is ever read.
- Start-up checks only `TargetAddress` and `TargetPort`, plus `ChatChannel` when the remote-admin relay is absent. A missing `TargetToken`, `TargetGateway` or `ChatChannel` otherwise surfaces later, as an exception in the handler or poll that first reads it.
- A player's speech is forwarded whenever `IncludeWorldChat` is set, with no channel test. A channel message is forwarded iff its channel is the bound one or the binding is `*`.

## Model

| member | source | states |
|---|---|---|
| `Text.Split` | Scripts/Custom/Matterbridge.cs:108 | `line.Split('=')` has one part more than there are separators, no part holds the separator, and joining the parts with the separator gives back the line |
| `Text.SplitJoin` | Scripts/Custom/Matterbridge.cs:108 | Split undoes Join when no part holds the separator, so the parts are determined by the text |
| `Text.Lower` | Scripts/Custom/Matterbridge.cs:127 | `value.ToLower()` keeps the length and leaves no capital letter, and its result is "true" exactly for the sixteen upper/lower-case spellings of "true" |
| `Text.Contains` | Scripts/Custom/Matterbridge.cs:220 | the scan behind `param.Contains("General")` succeeds iff the text occurs at some index of `param` |
| `Text.NatToString` | Scripts/Custom/Matterbridge.cs:206 | the decimal digits of a natural number start with '0' only for zero itself, which is "0" |
| `Text.IntToString` | Scripts/Custom/Matterbridge.cs:206 | the decimal text that concatenation makes of an integer coordinate or serial, as the invariant culture renders it: a leading '-' exactly for a negative number, then digits with no leading zero (zero is "0"); it reads back as that integer |
| `Messages.InboundToString` | Scripts/Custom/Matterbridge.cs:49-52 | `MatterbridgeMessage.ToString` is `"[protocol] channel"` and `" username: text"` around the line's only pipe character (null fields shown empty) when no field holds a pipe |
| `Messages.NewPostMessage` | Scripts/Custom/Matterbridge.cs:68-73 | the constructor sets gateway, user name and text, and leaves avatar and event null |
| `Messages.PostToString` | Scripts/Custom/Matterbridge.cs:74-77 | `MatterbridgePostMessage.ToString` splits on its pipes into gateway, event, user name and text (null fields shown empty, each padded by the separators' spaces) when no field holds a pipe |
| `Messages.NewPostMessageToString` | Scripts/Custom/Matterbridge.cs:74-77 | a freshly built post message renders as four pipe-separated fields: gateway, an empty event, user name, text |
| `Config.IsComment` | Scripts/Custom/Matterbridge.cs:106 | a line is a comment iff its first character is '#' |
| `Config.Entry` | Scripts/Custom/Matterbridge.cs:106-112 | a line yields an entry iff it does not start with '#' and holds exactly one '='; the key is the untrimmed text before it and the value the untrimmed text after it |
| `Config.CommentLineIgnored` | Scripts/Custom/Matterbridge.cs:106 | a line starting with '#' never yields an entry, whatever '=' it holds |
| `Config.LoneEqualsSign` | Scripts/Custom/Matterbridge.cs:108-113 | the line "=" stores the empty key with the empty value |
| `Config.AddLine` | Scripts/Custom/Matterbridge.cs:106-114 | one pass of the reading loop: `Add` throws a duplicate-key error iff the line's key is already present; otherwise the line's entry is added, every earlier entry is kept unchanged, and no other key appears |
| `Config.ParseLines` | Scripts/Custom/Matterbridge.cs:104-116 | reading the lines in order fails only with a duplicate key, and never stores more entries than there are lines |
| `Config.SkippedLineIrrelevant` | Scripts/Custom/Matterbridge.cs:106-109 | a comment or malformed line can be removed from anywhere in the file without changing the dictionary or the error |
| `Config.ParseLinesSucceedsIff` | Scripts/Custom/Matterbridge.cs:113 | reading succeeds iff no two entry lines share a key (Dictionary.Add throws on a repeated key) |
| `Config.ParseLinesContents` | Scripts/Custom/Matterbridge.cs:104-116 | after a successful read the dictionary holds every entry line's key with that line's value, and no other key |
| `Config.ParseLinesFailure` | Scripts/Custom/Matterbridge.cs:113 | a failed read reports a duplicate key that two entry lines share, and it is the key of the first line whose key is already in the dictionary read so far, the line on which Add throws |
| `Config.FailureIsFinal` | Scripts/Custom/Matterbridge.cs:104-116 | once Add has thrown, the lines that follow do not matter |
| `Config.MatterbridgeConfig.Empty` | Scripts/Custom/Matterbridge.cs:96 | the dictionary starts empty |
| `Config.MatterbridgeConfig.Load` | Scripts/Custom/Matterbridge.cs:94-123 | the reading loop builds a fresh configuration whose map is the ParseLines dictionary, or fails with ParseLines' duplicate-key error |
| `Config.MatterbridgeConfig.Get` | Scripts/Custom/Matterbridge.cs:82-87 | the indexer behind the string accessors returns the stored value, or a missing-key error when the key was never read |
| `Config.MatterbridgeConfig.IsBooleanKeyEnabled` | Scripts/Custom/Matterbridge.cs:125-130 | true iff the key is present and its value spells "true" in any letter case; a missing key is false, not an error |
| `Config.MatterbridgeConfig.TargetUri` | Scripts/Custom/Matterbridge.cs:86 | succeeds iff address and port are both present (a missing address is reported first), and is then `http://address:port` from the raw strings |
| `Config.UriSplitsBack` | Scripts/Custom/Matterbridge.cs:86 | with no ':' in address or port, both are read back from the endpoint text |
| `Relay.Configure` | Scripts/Custom/Matterbridge.cs:139-174 | start-up fails iff address or port is missing (address reported first), the HTTP client refuses the endpoint text, or ChatChannel is missing without the remote-admin relay. Speech is subscribed iff IncludeWorldChat. A static channel is created iff there is no remote-admin relay and the binding is not `*`. Auto-join only comes with a static channel and AutoJoinChatChannel |
| `Relay.FormatMessageForMatterbridge` | Scripts/Custom/Matterbridge.cs:278-284 | both shapes end with " ", a pipe, " ", the source, ": " and the message. Before that, the SimpleMessages shape has only the speaker's name; the full shape has "<serial>", the name and " (account)" |
| `Relay.SimpleFormatLeadsWithName` | Scripts/Custom/Matterbridge.cs:282 | in the SimpleMessages shape a speaker's name without pipes is the first pipe-separated field |
| `Relay.FullFormatCarriesSerial` | Scripts/Custom/Matterbridge.cs:283 | the full shape opens with '<' and the serial reads back from the text before the first '>' |
| `Relay.Coordinates` | Scripts/Custom/Matterbridge.cs:206 | the location text "x,y,z" reads back as the same three integers |
| `Relay.SpeechSource` | Scripts/Custom/Matterbridge.cs:206 | the speech source starts with the region and " (", ends with ")", and x, y and z read back from the text between them |
| `Relay.ShouldPost` | Scripts/Custom/Matterbridge.cs:256 | under the binding `*` every channel's message goes to the hub; under a named binding exactly the bound channel's messages do |
| `Relay.Post` | Scripts/Custom/Matterbridge.cs:258 | a post needs TargetToken then TargetGateway (a missing one is reported in that order); it carries the token and a post message with the gateway, the speaker's name and the formatted text |
| `Relay.OnServUOChatReceived` | Scripts/Custom/Matterbridge.cs:245-260 | the local relay (remote-admin relay iff present, else the channel) always happens first, whatever the configuration. The hub post happens iff the channel is the bound one or the binding is `*`. A missing ChatChannel is an error after the relay |
| `Relay.OutboundRouting` | Scripts/Custom/Matterbridge.cs:256-259 | with the keys present, a channel message is posted iff the binding is `*` or the channel is the bound one, and the posted text is the formatted message |
| `Relay.OnSpeech` | Scripts/Custom/Matterbridge.cs:201-208 | nothing is posted unless IncludeWorldChat is set and the speaker is a player; a player's speech is otherwise posted with the region and location as its source |
| `Relay.BlockGeneralAtLogin` | Scripts/Custom/Matterbridge.cs:218-224 | a join request is ignored iff its parameter contains "General" and the connection is under five seconds old; otherwise it is passed on unchanged |
| `Relay.SendAllOncePerMember` | Scripts/Custom/Matterbridge.cs:233-236 | sending to distinct members gives each of them the text exactly once and nobody else anything, with no broadcast |
| `Relay.InboundDeliveries` | Scripts/Custom/Matterbridge.cs:226-243 | every delivery for a hub message carries its rendered line at hue 0. Under `*` there is a single non-ASCII broadcast. Under a named binding there is one send per member of the bound channel, in membership order, or none when no channel has that name |
| `Relay.InboundRouting` | Scripts/Custom/Matterbridge.cs:226-243 | for one hub message: under a named binding each member of the bound channel gets the rendered line once; a missing channel gets nothing; under `*` there is one broadcast and no send |
| `Relay.OnMatterbridgeMessageReceived` | Scripts/Custom/Matterbridge.cs:226-243 | the send loop produces exactly the deliveries InboundDeliveries specifies, or a missing-key error when ChatChannel is absent |
| `Relay.BatchDeliveries` | Scripts/Custom/Matterbridge.cs:186-189 | a batch under `*` gives one broadcast per message; under a named binding only sends, each to a member of the bound channel, and none when no channel has that name |
| `Relay.WildcardBatchOrder` | Scripts/Custom/Matterbridge.cs:186-189 | under `*` the broadcasts of a batch are its rendered lines, once each, in the order received |
| `Relay.NamedChannelBatchOrder` | Scripts/Custom/Matterbridge.cs:186-189 | under a named binding each member of the bound channel receives every line of the batch exactly once, in the order received |
| `Relay.PollStep` | Scripts/Custom/Matterbridge.cs:182-194 | one pass of the loop. A missing TargetToken throws before any fetch, whatever the hub would have returned. With a token: a failed fetch logs exactly its reason; an empty batch does nothing; a batch delivers exactly BatchDeliveries of it for the bound channel, or, when ChatChannel is missing, nothing and that one error. A pass never both delivers and logs, and logs at most one line |
| `Relay.Polls` | Scripts/Custom/Matterbridge.cs:180-197 | successive passes over a run of polls log at most one line per poll |
| `Relay.PollOnce` | Scripts/Custom/Matterbridge.cs:182-194 | one pass of the loop: the token is read first, and a missing one is logged before anything is fetched. A failed fetch is logged. A batch is delivered message by message, and an exception while delivering ends the pass with one log line. The effects are exactly PollStep's |
| `Relay.PollsAppend` | Scripts/Custom/Matterbridge.cs:180-197 | the effects of consecutive runs of polls are the effects of each run, one after the other |
| `Relay.FailedFetchSkipsOnlyItsPoll` | Scripts/Custom/Matterbridge.cs:182-196 | a failed fetch leaves the polls before and after it delivered exactly as without it, and (with a readable token) logs its reason in its place |
| `Relay.MissingTokenDeliversNothing` | Scripts/Custom/Matterbridge.cs:184 | without TargetToken no poll delivers anything, and every pass logs the missing-key error |
| `Relay.Listen` | Scripts/Custom/Matterbridge.cs:176-199 | over a finite run of polls, every poll is made whatever became of earlier ones (a missing token included), and the effects follow the polls in order, as Polls gives them for the token and the binding read from the configuration |

## Left out

- File access: the path under `Scripts/Custom`, the `FileInfo`/`StreamReader` reading, and the "file is missing" exception. `Load` takes the file's lines, as `ReadLine` returns them.
- The Refit HTTP client, the JSON property names and the serializer options: foreign library code. `extra` is kept as opaque raw text.
- `Task.Run`, the unbounded `while (true)` and the 200 ms `Task.Delay`. `Listen` runs over a finite sequence of poll results.
- Concurrency between the polling task and the chat handlers.
- `PostMessage` is fire-and-forget: a post is only recorded as a `HubPost`, and its failures are not modelled.
- `Type.GetType` / `MethodInfo.Invoke` probing for `RconPacketHandlers`: modelled as the boolean `rconPresent`.
- The game engine's objects: `Channel`, `ChatUser`, `EventSink`, `World.Broadcast`, `ChatActionHandlers`, `Mobile`. They appear only as the values above.
  - Channel membership is read once per poll. A change inside one batch is not modelled.
  - Null mobiles, regions, accounts or channels, and the exceptions they would raise, are not modelled.
- `EventSink_JoinDefaultChannelAtLogin` (adding the player to the bound channel) changes the game engine's channel registry, which is an external collaborator. Only the decision to subscribe it (`Configure`'s `autoJoin`) is modelled.
- `Relay.Configure`: whether the HTTP client factory (`RestService.For`, through `System.Uri`) accepts the endpoint text is the parameter `endpointAccepted`. The URI grammar that rejects, say, a port of "abc" or "70000" or an empty address is library code and is not modelled.
- `TargetPort`'s `Int32.Parse` is not modelled: nothing in the file reads it. `TargetUri` uses the raw port string, as the code does.
- `IsComment` compares ordinally, while C# `StartsWith(string)` is culture-sensitive. The two can differ only for lines that begin with characters the culture ignores.
- `Text.IntToString`: the rendering assumes a culture whose negative sign is '-'. C# `Int32.ToString()` takes the sign from the current culture's `NumberFormatInfo.NegativeSign`, which some cultures (sv-SE, fi-FI, nb-NO under ICU) set to U+2212. `Relay.Coordinates`, `Relay.SpeechSource` and the serial in `Relay.FormatMessageForMatterbridge` inherit the assumption.
- `Lower` lowers only ASCII capitals, while C# `ToLower()` uses the current culture. Comparing the result with "true" still agrees unless the culture maps some non-ASCII character to one of 't', 'r', 'u', 'e'.
- `BlockGeneralAtLogin`: the floating-point `ConnectedFor.TotalSeconds < 5` is modelled on integer ticks, as `ticks < 50,000,000`.
- Integers are unbounded: serials and coordinates are assumed to be the `int` values the engine holds, and their rendering is the same.
- Console output: the log holds the failure (the fetch's reason, or the configuration error), not the exception's message text.

=== FILE: config.dfy ===
/**
 * MatterbridgeConfig (Scripts/Custom/Matterbridge.cs:80-131): the key=value
 * settings of the relay, read once at start-up into a dictionary, and the
 * accessors the relay reads them through.
 */
module Config {
  import opened Wrappers
  import opened Text

  const TARGET_TOKEN := "TargetToken"
  const TARGET_GATEWAY := "TargetGateway"
  const TARGET_ADDRESS := "TargetAddress"
  const TARGET_PORT := "TargetPort"
  const CHAT_CHANNEL := "ChatChannel"
  const AUTO_JOIN_CHAT_CHANNEL := "AutoJoinChatChannel"
  const INCLUDE_WORLD_CHAT := "IncludeWorldChat"
  const SIMPLE_MESSAGES := "SimpleMessages"

  /**
   * The exceptions the configuration raises: Dictionary.Add on a key seen
   * before, the dictionary indexer on a key that was never read, and the
   * HTTP client factory refusing the endpoint text built from the settings.
   */
  datatype ConfigError = DuplicateKey(key: string) | MissingKey(key: string) | InvalidEndpoint(uri: string)

  /** A comment line: its first character is '#'. */
  function IsComment(line: string): (b: bool)
    ensures b <==> |line| > 0 && line[0] == '#'
  {
    StartsWith(line, "#")
  }

  /**
   * The key and value a line contributes, if any: a non-comment line that
   * splits on '=' into exactly two parts, taken as they are (no trimming).
   */
  function Entry(line: string): (e: Option<(string, string)>)
    ensures e.Some? <==> !IsComment(line) && Occurrences(line, '=') == 1
    ensures e.Some? ==> e.value.0 + "=" + e.value.1 == line
    ensures e.Some? ==> '=' !in e.value.0 && '=' !in e.value.1
  {
    if IsComment(line) then None
    else
      var parts := Split(line, '=');
      if |parts| == 2 then
        assert parts == [parts[0], parts[1]];
        JoinTwo(parts[0], parts[1], '=');
        Some((parts[0], parts[1]))
      else None
  }

  /** A lone "=" stores the empty key with the empty value. */
  lemma LoneEqualsSign()
    ensures Entry("=") == Some(("", ""))
  {
    assert Split("=", '=') == ["", ""] by {
      SplitAtFirstSeparator("", '=', "");
      SplitWithoutSeparator("", '=');
    }
  }

  /**
   * One pass of the reading loop: the dictionary after `line`, or the
   * exception Add throws. Add never overwrites: it fails exactly when the
   * line's key is already present, and otherwise keeps every earlier entry.
   */
  function AddLine(vars: map<string, string>, line: string): (r: Result<map<string, string>, ConfigError>)
    ensures r.Failure? <==> Entry(line).Some? && Entry(line).value.0 in vars
    ensures r.Failure? ==> r.error == DuplicateKey(Entry(line).value.0)
    ensures r.Success? ==> forall key :: key in vars ==> key in r.value && r.value[key] == vars[key]
    ensures r.Success? && Entry(line).Some? ==>
      Entry(line).value.0 in r.value && r.value[Entry(line).value.0] == Entry(line).value.1
    ensures r.Success? ==> forall key :: key in r.value ==> key in vars || (Entry(line).Some? && key == Entry(line).value.0)
    ensures r.Success? ==> |r.value| <= |vars| + 1
  {
    match Entry(line)
    case None => Success(vars)
    case Some((key, value)) =>
      if key in vars then Failure(DuplicateKey(key))
      else
        assert vars[key := value].Keys == vars.Keys + {key};
        Success(vars[key := value])
  }

  /**
   * The dictionary built from `lines` read in order, or the first exception:
   * always a duplicate key, and never more entries than lines.
   */
  function ParseLines(lines: seq<string>): (r: Result<map<string, string>, ConfigError>)
    ensures r.Failure? ==> r.error.DuplicateKey?
    ensures r.Success? ==> |r.value| <= |lines|
  {
    if lines == [] then Success(map[])
    else
      match ParseLines(lines[..|lines| - 1])
      case Failure(e) => Failure(e)
      case Success(vars) => AddLine(vars, lines[|lines| - 1])
  }

  /** Line `i` carries an entry with key `key`. */
  predicate DefinesKey(lines: seq<string>, i: int, key: string)
  {
    0 <= i < |lines| && Entry(lines[i]).Some? && Entry(lines[i]).value.0 == key
  }

  /** No two entry lines share a key. */
  ghost predicate UniqueKeys(lines: seq<string>)
  {
    forall i, j, key :: i < j && DefinesKey(lines, i, key) ==> !DefinesKey(lines, j, key)
  }

  /** A successful read holds every entry line's key with that line's value. */
  lemma {:induction false} ParseLinesHasEntries(lines: seq<string>)
    requires ParseLines(lines).Success?
    ensures forall i :: 0 <= i < |lines| && Entry(lines[i]).Some? ==>
      Entry(lines[i]).value.0 in ParseLines(lines).value
      && ParseLines(lines).value[Entry(lines[i]).value.0] == Entry(lines[i]).value.1
  {
    if lines != [] {
      var n := |lines| - 1;
      var init, last := lines[..n], lines[n];
      ParseLinesHasEntries(init);
      assert ParseLines(lines) == AddLine(ParseLines(init).value, last);
      forall i | 0 <= i < n && Entry(lines[i]).Some?
        ensures Entry(lines[i]).value.0 in ParseLines(lines).value
             && ParseLines(lines).value[Entry(lines[i]).value.0] == Entry(lines[i]).value.1
      {
        assert lines[i] == init[i];
      }
    }
  }

  /** A successful read holds no key that no entry line defines. */
  lemma {:induction false} ParseLinesOnlyEntries(lines: seq<string>)
    requires ParseLines(lines).Success?
    ensures forall key :: key in ParseLines(lines).value ==> exists i :: DefinesKey(lines, i, key)
  {
    if lines != [] {
      var n := |lines| - 1;
      var init, last := lines[..n], lines[n];
      ParseLinesOnlyEntries(init);
      var before := ParseLines(init).value;
      assert ParseLines(lines) == AddLine(before, last);
      forall key | key in ParseLines(lines).value
        ensures exists i :: DefinesKey(lines, i, key)
      {
        if key in before {
          var i :| DefinesKey(init, i, key);
          assert DefinesKey(lines, i, key);
        } else {
          assert DefinesKey(lines, n, key);
        }
      }
    }
  }

  /**
   * A successful read holds every entry line's key with that line's value,
   * and no key that no entry line defines.
   */
  lemma ParseLinesContents(lines: seq<string>)
    requires ParseLines(lines).Success?
    ensures forall i :: 0 <= i < |lines| && Entry(lines[i]).Some? ==>
      Entry(lines[i]).value.0 in ParseLines(lines).value
      && ParseLines(lines).value[Entry(lines[i]).value.0] == Entry(lines[i]).value.1
    ensures forall key :: key in ParseLines(lines).value ==> exists i :: DefinesKey(lines, i, key)
  {
    ParseLinesHasEntries(lines);
    ParseLinesOnlyEntries(lines);
  }

  /** Appending a line keeps keys unique iff it carries no entry or its key is new. */
  lemma UniqueKeysSnoc(lines: seq<string>)
    requires lines != []
    ensures var n := |lines| - 1;
      UniqueKeys(lines) <==>
        UniqueKeys(lines[..n])
        && (Entry(lines[n]).Some? ==> forall i :: !DefinesKey(lines[..n], i, Entry(lines[n]).value.0))
  {
    var n := |lines| - 1;
    var init := lines[..n];
    assert forall i, key :: DefinesKey(init, i, key) <==> i < n && DefinesKey(lines, i, key);
    ghost var newKey := Entry(lines[n]).Some? ==> forall i :: !DefinesKey(init, i, Entry(lines[n]).value.0);
    if UniqueKeys(lines) {
      if Entry(lines[n]).Some? {
        var key := Entry(lines[n]).value.0;
        assert DefinesKey(lines, n, key);
      }
    }
    if UniqueKeys(init) && newKey {
      forall i, j, key | i < j && DefinesKey(lines, i, key)
        ensures !DefinesKey(lines, j, key)
      {
        if j < n {
          assert DefinesKey(init, i, key);
        } else if j == n {
          assert DefinesKey(init, i, key);
        }
      }
    }
  }

  /** Reading succeeds exactly when no two entry lines share a key. */
  lemma {:induction false} ParseLinesSucceedsIff(lines: seq<string>)
    ensures ParseLines(lines).Success? <==> UniqueKeys(lines)
  {
    if lines != [] {
      var n := |lines| - 1;
      var init, last := lines[..n], lines[n];
      ParseLinesSucceedsIff(init);
      UniqueKeysSnoc(lines);
      if ParseLines(init).Success? {
        ParseLinesContents(init);
        var vars := ParseLines(init).value;
        if Entry(last).Some? {
          var key := Entry(last).value.0;
          if key in vars {
            var i :| DefinesKey(init, i, key);
          } else {
            assert forall i :: !DefinesKey(init, i, key);
          }
        }
      }
    }
  }

  /** A failed read names a key that two entry lines share. */
  lemma {:induction false} ParseLinesSharedKey(lines: seq<string>)
    requires ParseLines(lines).Failure?
    ensures exists i, j :: i < j && DefinesKey(lines, i, ParseLines(lines).error.key)
                                 && DefinesKey(lines, j, ParseLines(lines).error.key)
  {
    var n := |lines| - 1;
    var init := lines[..n];
    var key := ParseLines(lines).error.key;
    if ParseLines(init).Failure? {
      ParseLinesSharedKey(init);
      var i, j :| i < j && DefinesKey(init, i, key) && DefinesKey(init, j, key);
      assert DefinesKey(lines, i, key) && DefinesKey(lines, j, key);
    } else {
      ParseLinesContents(init);
      var i :| DefinesKey(init, i, key);
      assert DefinesKey(lines, i, key) && DefinesKey(lines, n, key);
    }
  }

  /** A failed read names the key of the line on which Add throws. */
  lemma {:induction false} ParseLinesFirstRepeat(lines: seq<string>)
    requires ParseLines(lines).Failure?
    ensures exists j :: 0 <= j < |lines| && ParseLines(lines[..j]).Success?
                        && DefinesKey(lines, j, ParseLines(lines).error.key)
                        && ParseLines(lines).error.key in ParseLines(lines[..j]).value
  {
    var n := |lines| - 1;
    var init := lines[..n];
    var key := ParseLines(lines).error.key;
    if ParseLines(init).Failure? {
      ParseLinesFirstRepeat(init);
      var k :| 0 <= k < |init| && ParseLines(init[..k]).Success? && DefinesKey(init, k, key)
               && key in ParseLines(init[..k]).value;
      assert init[..k] == lines[..k];
      assert DefinesKey(lines, k, key);
    } else {
      assert DefinesKey(lines, n, key);
    }
  }

  /**
   * A failed read names a key that two entry lines share, and it is the key
   * of the first line whose key was already in the dictionary built so far:
   * the line on which Add throws.
   */
  lemma ParseLinesFailure(lines: seq<string>)
    requires ParseLines(lines).Failure?
    ensures ParseLines(lines).error.DuplicateKey?
    ensures exists i, j :: i < j && DefinesKey(lines, i, ParseLines(lines).error.key)
                                 && DefinesKey(lines, j, ParseLines(lines).error.key)
    ensures exists j :: 0 <= j < |lines| && ParseLines(lines[..j]).Success?
                        && DefinesKey(lines, j, ParseLines(lines).error.key)
                        && ParseLines(lines).error.key in ParseLines(lines[..j]).value
  {
    ParseLinesSharedKey(lines);
    ParseLinesFirstRepeat(lines);
  }

  /**
   * A line that carries no entry (a comment, or not exactly one '=') can be
   * removed from anywhere in the file without changing the outcome.
   */
  lemma {:induction false} SkippedLineIrrelevant(before: seq<string>, line: string, after: seq<string>)
    requires Entry(line).None?
    ensures ParseLines(before + [line] + after) == ParseLines(before + after)
    decreases |after|
  {
    if after == [] {
      assert (before + [line])[..|before|] == before;
      assert before + [line] + after == before + [line];
      assert before + after == before;
    } else {
      var init := after[..|after| - 1];
      SkippedLineIrrelevant(before, line, init);
      var xs, ys := before + [line] + after, before + after;
      assert xs[..|xs| - 1] == before + [line] + init;
      assert ys[..|ys| - 1] == before + init;
      SameLastLine(xs, ys);
    }
  }

  /** Two files that read alike up to their last lines, and end in the same line, read alike. */
  lemma SameLastLine(xs: seq<string>, ys: seq<string>)
    requires xs != [] && ys != [] && xs[|xs| - 1] == ys[|ys| - 1]
    requires ParseLines(xs[..|xs| - 1]) == ParseLines(ys[..|ys| - 1])
    ensures ParseLines(xs) == ParseLines(ys)
  {
  }

  /** Once reading has failed, the lines that follow do not matter. */
  lemma {:induction false} FailureIsFinal(lines: seq<string>, k: nat)
    requires k <= |lines| && ParseLines(lines[..k]).Failure?
    ensures ParseLines(lines) == ParseLines(lines[..k])
    decreases |lines| - k
  {
    if k < |lines| {
      assert lines[..k + 1][..k] == lines[..k];
      FailureIsFinal(lines, k + 1);
    } else {
      assert lines[..k] == lines;
    }
  }

  /** A comment line never carries an entry, whatever '=' it holds. */
  lemma CommentLineIgnored(line: string)
    requires IsComment(line)
    ensures Entry(line) == None
  {
  }

  /**
   * The settings: the dictionary of the source, `m_Vars`, as a map field
   * that the reading loop fills and nothing changes afterwards.
   */
  class MatterbridgeConfig {
    var vars: map<string, string>

    constructor Empty()
      ensures vars == map[]
    {
      vars := map[];
    }

    /**
     * The MatterbridgeConfig constructor once the file is open: each line is
     * read in turn and its entry added; a key already present makes Add throw,
     * and the configuration is then never created.
     */
    static method Load(lines: seq<string>) returns (r: Result<MatterbridgeConfig, ConfigError>)
      ensures r.Success? <==> ParseLines(lines).Success?
      ensures r.Success? ==> fresh(r.value) && r.value.vars == ParseLines(lines).value
      ensures r.Failure? ==> r.error == ParseLines(lines).error
    {
      var cfg := new MatterbridgeConfig.Empty();
      var i := 0;
      while i < |lines|
        invariant 0 <= i <= |lines|
        invariant ParseLines(lines[..i]) == Success(cfg.vars)
      {
        var line := lines[i];
        assert lines[..i + 1][..i] == lines[..i];
        if !StartsWith(line, "#") {
          var parts := Split(line, '=');
          if |parts| == 2 {
            var key, value := parts[0], parts[1];
            if key in cfg.vars {
              FailureIsFinal(lines, i + 1);
              return Failure(DuplicateKey(key));
            }
            cfg.vars := cfg.vars[key := value];
          }
        }
        i := i + 1;
      }
      assert lines[..i] == lines;
      return Success(cfg);
    }

    /**
     * The dictionary indexer behind TargetToken, TargetGateway,
     * TargetAddress, TargetPort and ChatChannel: the stored value, or
     * KeyNotFoundException for a key the file did not define.
     */
    function Get(key: string): (r: Result<string, ConfigError>)
      reads this
      ensures r.Success? <==> key in vars
      ensures r.Success? ==> r.value == vars[key]
      ensures r.Failure? ==> r.error == MissingKey(key)
    {
      if key in vars then Success(vars[key]) else Failure(MissingKey(key))
    }

    /**
     * IsBooleanKeyEnabled (behind AutoJoinChatChannel, IncludeWorldChat and
     * SimpleMessages): the key is present and its value is "true" in any
     * letter case; a missing key is simply false.
     */
    function IsBooleanKeyEnabled(key: string): (b: bool)
      reads this
      ensures b <==> key in vars && SpellsTrue(vars[key])
    {
      if key in vars then Lower(vars[key]) == "true" else false
    }

    /**
     * TargetUri: "http://" + address + ":" + port, from the raw strings.
     * The address is read first, so its absence is the error reported.
     */
    function TargetUri(): (r: Result<string, ConfigError>)
      reads this
      ensures r.Success? <==> TARGET_ADDRESS in vars && TARGET_PORT in vars
      ensures TARGET_ADDRESS !in vars ==> r == Failure(MissingKey(TARGET_ADDRESS))
      ensures TARGET_ADDRESS in vars && TARGET_PORT !in vars ==> r == Failure(MissingKey(TARGET_PORT))
      ensures r.Success? ==> r.value == Uri(vars[TARGET_ADDRESS], vars[TARGET_PORT])
    {
      match Get(TARGET_ADDRESS)
      case Failure(e) => Failure(e)
      case Success(address) =>
        match Get(TARGET_PORT)
        case Failure(e) => Failure(e)
        case Success(port) => Success(Uri(address, port))
    }
  }

  /** The endpoint text the HTTP client is created for. */
  function Uri(address: string, port: string): string
  {
    "http://" + address + ":" + port
  }

  /** With no ':' in the address or the port, both are read back from the endpoint. */
  lemma UriSplitsBack(address: string, port: string)
    requires ':' !in address && ':' !in port
    ensures Split(Uri(address, port), ':') == ["http", "//" + address, port]
  {
    var parts := ["http", "//" + address, port];
    assert Uri(address, port) == parts[0] + [':'] + parts[1] + [':'] + parts[2];
    JoinThree(parts[0], parts[1], parts[2], ':');
    SplitJoin(parts, ':');
  }
}

=== FILE: messages.dfy ===
/**
 * The two records exchanged with the hub (Scripts/Custom/Matterbridge.cs):
 * MatterbridgeMessage, read from GET /api/messages, and
 * MatterbridgePostMessage, sent with POST /api/message, with their ToString
 * renderings. Every property is a C# string that may be null (a field the
 * hub left out of its JSON, or one the constructor never sets); string
 * concatenation renders null as the empty string.
 */
module Messages {
  import opened Wrappers
  import opened Text

  /** What a possibly-null string contributes to a C# concatenation. */
  function Show(s: Option<string>): string
  {
    if s.Some? then s.value else ""
  }

  /** A hub-originated chat event; `extra` is the opaque JSON value, kept as its raw text. */
  datatype InboundMessage = InboundMessage(
    text: Option<string>,
    channel: Option<string>,
    username: Option<string>,
    userId: Option<string>,
    avatar: Option<string>,
    account: Option<string>,
    event: Option<string>,
    protocol: Option<string>,
    gateway: Option<string>,
    parentId: Option<string>,
    timestamp: Option<string>,
    id: Option<string>,
    extra: Option<string>)

  /**
   * MatterbridgeMessage.ToString: the line shown to players in the game.
   * When no field holds a '|', the line has exactly one '|', which separates
   * "[protocol] channel" from "username: text".
   */
  function InboundToString(m: InboundMessage): (r: string)
    ensures '|' !in Show(m.protocol) && '|' !in Show(m.channel) && '|' !in Show(m.username) && '|' !in Show(m.text)
      ==> Split(r, '|') == ["[" + Show(m.protocol) + "] " + Show(m.channel) + " ", " " + Show(m.username) + ": " + Show(m.text)]
  {
    var head := "[" + Show(m.protocol) + "] " + Show(m.channel) + " ";
    var tail := " " + Show(m.username) + ": " + Show(m.text);
    assert head + ['|'] + tail == "[" + Show(m.protocol) + "] " + Show(m.channel) + " | " + Show(m.username) + ": " + Show(m.text);
    JoinTwo(head, tail, '|');
    assert '|' !in head && '|' !in tail ==> Split(head + ['|'] + tail, '|') == [head, tail] by {
      if '|' !in head && '|' !in tail {
        SplitJoin([head, tail], '|');
      }
    }
    head + ['|'] + tail
  }

  /** A locally-originated message for the hub. */
  datatype PostMessage = PostMessage(
    text: Option<string>,
    username: Option<string>,
    avatar: Option<string>,
    event: Option<string>,
    gateway: Option<string>)

  /**
   * The MatterbridgePostMessage constructor: it sets the gateway, the user
   * name and the text, and leaves the avatar and the event null.
   */
  function NewPostMessage(gateway: string, username: string, text: string): (m: PostMessage)
    ensures m.gateway == Some(gateway) && m.username == Some(username) && m.text == Some(text)
    ensures m.avatar == None && m.event == None
  {
    PostMessage(Some(text), Some(username), None, None, Some(gateway))
  }

  /**
   * MatterbridgePostMessage.ToString: gateway, event, user name and text,
   * separated by " | ". When no field holds a '|', splitting on '|' gives
   * the four fields back, each padded by the separators' spaces.
   */
  function PostToString(m: PostMessage): (r: string)
    ensures '|' !in Show(m.gateway) && '|' !in Show(m.event) && '|' !in Show(m.username) && '|' !in Show(m.text)
      ==> Split(r, '|') == [Show(m.gateway) + " ", " " + Show(m.event) + " ", " " + Show(m.username) + " ", " " + Show(m.text)]
  {
    var g, e, u, t := Show(m.gateway) + " ", " " + Show(m.event) + " ", " " + Show(m.username) + " ", " " + Show(m.text);
    JoinFour(g, e, u, t, '|');
    assert '|' !in g && '|' !in e && '|' !in u && '|' !in t ==> Split(Join([g, e, u, t], '|'), '|') == [g, e, u, t] by {
      if '|' !in g && '|' !in e && '|' !in u && '|' !in t {
        SplitJoin([g, e, u, t], '|');
      }
    }
    g + ['|'] + e + ['|'] + u + ['|'] + t
  }

  /**
   * A freshly constructed post message renders as four '|'-separated
   * fields, gateway, event, user name and text, whose event field is blank.
   */
  lemma NewPostMessageToString(gateway: string, username: string, text: string)
    requires '|' !in gateway && '|' !in username && '|' !in text
    ensures Split(PostToString(NewPostMessage(gateway, username, text)), '|')
         == [gateway + " ", "  ", " " + username + " ", " " + text]
  {
    var m := NewPostMessage(gateway, username, text);
    assert Show(m.event) == "" && " " + Show(m.event) + " " == "  ";
  }
}

=== FILE: relay.dfy ===
/**
 * The static Matterbridge class (Scripts/Custom/Matterbridge.cs:133-285):
 * start-up decisions, the rendering of local chat for the hub, the
 * delivery of hub messages to players, the polling loop, and the two
 * local chat handlers that post to the hub. The game server's channels,
 * players and network sends are inputs and outputs: a registry of channel
 * members goes in, and Delivery, HubPost and LocalRelay values come out.
 */
module Relay {
  import opened Wrappers
  import opened Text
  import opened Messages
  import opened Config

  /** The ChatChannel value that binds the relay to all chat instead of one channel. */
  const WILDCARD := "*"

  /** The hue of every message sent or broadcast to players. */
  const MESSAGE_HUE := 0

  /** Five seconds in TimeSpan ticks (100 ns): how long a new login's "General" join is ignored. */
  const GENERAL_JOIN_GRACE_TICKS := 50_000_000

  /** The properties of a Mobile the relay reads. */
  datatype Mobile = Mobile(
    name: string,
    serial: int,
    account: string,
    isPlayer: bool,
    region: string,
    x: int,
    y: int,
    z: int)

  /** A member of a chat channel. */
  datatype ChatUser = ChatUser(mobile: Mobile)

  /** What reaches players: one mobile's message, or a broadcast to the whole world. */
  datatype Delivery =
    | Send(to: ChatUser, hue: int, text: string)
    | Broadcast(hue: int, ascii: bool, text: string)

  /** A message posted to the hub with the bearer token. */
  datatype HubPost = HubPost(token: string, message: PostMessage)

  /** The local relay of a channel message: the remote-admin relay when present, else the channel's own fan-out. */
  datatype LocalRelay =
    | RconRelay(from: ChatUser, channel: string, text: string)
    | ChannelMessage(from: ChatUser, channel: string, text: string)

  // ---------------------------------------------------------------------
  // Start-up

  /** What Configure sets up besides the HTTP client, the chat handler and the poller. */
  datatype Setup = Setup(speechSubscribed: bool, staticChannel: Option<string>, autoJoin: bool)

  /**
   * Configure, after the configuration is read: the endpoint must be
   * readable and accepted by the HTTP client factory (`endpointAccepted`
   * says whether it accepts the text TargetUri builds); the speech handler
   * is subscribed when world chat is included; without the remote-admin
   * relay a named channel is created as a static channel, with auto-join at
   * login (and the "General" guard) when AutoJoinChatChannel is set.
   */
  function Configure(cfg: MatterbridgeConfig, rconPresent: bool, endpointAccepted: bool): (r: Result<Setup, ConfigError>)
    reads cfg
    ensures r.Success? <==>
      TARGET_ADDRESS in cfg.vars && TARGET_PORT in cfg.vars && endpointAccepted && (rconPresent || CHAT_CHANNEL in cfg.vars)
    ensures TARGET_ADDRESS !in cfg.vars ==> r == Failure(MissingKey(TARGET_ADDRESS))
    ensures TARGET_ADDRESS in cfg.vars && TARGET_PORT !in cfg.vars ==> r == Failure(MissingKey(TARGET_PORT))
    ensures TARGET_ADDRESS in cfg.vars && TARGET_PORT in cfg.vars && !endpointAccepted ==>
      r == Failure(InvalidEndpoint(Uri(cfg.vars[TARGET_ADDRESS], cfg.vars[TARGET_PORT])))
    ensures r.Failure? && endpointAccepted ==> r.error.MissingKey?
    ensures r.Success? ==> r.value.speechSubscribed == cfg.IsBooleanKeyEnabled(INCLUDE_WORLD_CHAT)
    ensures r.Success? ==>
      (r.value.staticChannel.Some? <==> !rconPresent && cfg.vars[CHAT_CHANNEL] != WILDCARD)
    ensures r.Success? && r.value.staticChannel.Some? ==> r.value.staticChannel.value == cfg.vars[CHAT_CHANNEL]
    ensures r.Success? ==>
      (r.value.autoJoin <==> r.value.staticChannel.Some? && cfg.IsBooleanKeyEnabled(AUTO_JOIN_CHAT_CHANNEL))
  {
    match cfg.TargetUri()
    case Failure(e) => Failure(e)
    case Success(uri) =>
      if !endpointAccepted then Failure(InvalidEndpoint(uri))
      else
        var speech := cfg.IsBooleanKeyEnabled(INCLUDE_WORLD_CHAT);
        if rconPresent then Success(Setup(speech, None, false))
        else
          match cfg.Get(CHAT_CHANNEL)
          case Failure(e) => Failure(e)
          case Success(chatChannel) =>
            if chatChannel == WILDCARD then Success(Setup(speech, None, false))
            else Success(Setup(speech, Some(chatChannel), cfg.IsBooleanKeyEnabled(AUTO_JOIN_CHAT_CHANNEL)))
  }

  // ---------------------------------------------------------------------
  // Rendering local chat for the hub

  /**
   * FormatMessageForMatterbridge: the short shape "name | source: message",
   * or the long one that adds the serial in angle brackets and the account
   * in parentheses. Both end in " | source: message".
   */
  function FormatMessageForMatterbridge(simple: bool, from: Mobile, source: string, message: string): (r: string)
    ensures EndsWith(r, " | " + source + ": " + message)
    ensures simple ==> StartsWith(r, from.name) && |r| == |from.name| + |" | " + source + ": " + message|
    ensures !simple ==>
      var head := "<" + IntToString(from.serial) + ">" + from.name + " (" + from.account + ")";
      StartsWith(r, head) && |r| == |head| + |" | " + source + ": " + message|
  {
    var tail := " | " + source + ": " + message;
    if simple then from.name + tail
    else "<" + IntToString(from.serial) + ">" + from.name + " (" + from.account + ")" + tail
  }

  /** The long shape opens with "<", and the serial reads back from the text before the first ">". */
  lemma FullFormatCarriesSerial(from: Mobile, source: string, message: string)
    ensures var r := FormatMessageForMatterbridge(false, from, source, message);
      r[0] == '<' && ParseInt(Split(r[1..], '>')[0]) == Some(from.serial)
  {
    var r := FormatMessageForMatterbridge(false, from, source, message);
    var rest := from.name + " (" + from.account + ") | " + source + ": " + message;
    assert r[1..] == IntToString(from.serial) + ['>'] + rest;
    IntToStringCharacters(from.serial, '>');
    SplitAtFirstSeparator(IntToString(from.serial), '>', rest);
  }

  /** In the short shape, a name without '|' is the first '|'-separated field, with its trailing space. */
  lemma SimpleFormatLeadsWithName(from: Mobile, source: string, message: string)
    requires '|' !in from.name
    ensures Split(FormatMessageForMatterbridge(true, from, source, message), '|')[0] == from.name + " "
  {
    var rest := " " + source + ": " + message;
    assert FormatMessageForMatterbridge(true, from, source, message) == (from.name + " ") + ['|'] + rest;
    SplitAtFirstSeparator(from.name + " ", '|', rest);
  }

  /** "x,y,z" as the speech source writes a location; it reads back as the same three numbers. */
  function Coordinates(x: int, y: int, z: int): (s: string)
    ensures ParseCoordinates(s) == Some((x, y, z))
  {
    var xs, ys, zs := IntToString(x), IntToString(y), IntToString(z);
    IntToStringCharacters(x, ',');
    IntToStringCharacters(y, ',');
    IntToStringCharacters(z, ',');
    JoinThree(xs, ys, zs, ',');
    SplitJoin([xs, ys, zs], ',');
    xs + [','] + ys + [','] + zs
  }

  /**
   * The source of ambient speech: the region's name, then the location in
   * parentheses, from which the location reads back.
   */
  function SpeechSource(from: Mobile): (s: string)
    ensures StartsWith(s, from.region + " (") && EndsWith(s, ")") && |from.region| + 3 <= |s|
    ensures ParseCoordinates(s[|from.region| + 2..|s| - 1]) == Some((from.x, from.y, from.z))
  {
    var c := Coordinates(from.x, from.y, from.z);
    var s := from.region + " (" + c + ")";
    assert s[|from.region| + 2..|s| - 1] == c;
    s
  }

  /** Reads a location written as "x,y,z". */
  function ParseCoordinates(s: string): Option<(int, int, int)>
  {
    var parts := Split(s, ',');
    if |parts| != 3 then None
    else
      match (ParseInt(parts[0]), ParseInt(parts[1]), ParseInt(parts[2]))
      case (Some(x), Some(y), Some(z)) => Some((x, y, z))
      case _ => None
  }

  // ---------------------------------------------------------------------
  // Local chat to the hub

  /**
   * The outbound rule: under the wildcard a message from any channel goes
   * to the hub; under a named binding only one from that channel does.
   */
  function ShouldPost(channel: string, chatChannel: string): (b: bool)
    ensures chatChannel == WILDCARD ==> b
    ensures chatChannel != WILDCARD ==> (b <==> channel == chatChannel)
  {
    channel == chatChannel || chatChannel == WILDCARD
  }

  /** The post for a message once the token and the gateway are read. */
  function Post(cfg: MatterbridgeConfig, from: Mobile, source: string, message: string): (r: Result<HubPost, ConfigError>)
    reads cfg
    ensures r.Success? <==> TARGET_TOKEN in cfg.vars && TARGET_GATEWAY in cfg.vars
    ensures TARGET_TOKEN !in cfg.vars ==> r == Failure(MissingKey(TARGET_TOKEN))
    ensures TARGET_TOKEN in cfg.vars && TARGET_GATEWAY !in cfg.vars ==> r == Failure(MissingKey(TARGET_GATEWAY))
    ensures r.Success? ==> r.value.token == cfg.vars[TARGET_TOKEN]
    ensures r.Success? ==> r.value.message == NewPostMessage(cfg.vars[TARGET_GATEWAY], from.name,
      FormatMessageForMatterbridge(cfg.IsBooleanKeyEnabled(SIMPLE_MESSAGES), from, source, message))
  {
    match cfg.Get(TARGET_TOKEN)
    case Failure(e) => Failure(e)
    case Success(token) =>
      match cfg.Get(TARGET_GATEWAY)
      case Failure(e) => Failure(e)
      case Success(gateway) =>
        var text := FormatMessageForMatterbridge(cfg.IsBooleanKeyEnabled(SIMPLE_MESSAGES), from, source, message);
        Success(HubPost(token, NewPostMessage(gateway, from.name, text)))
  }

  /** What one channel message causes: always a local relay, then at most one post to the hub. */
  datatype ChatEffects = ChatEffects(relay: LocalRelay, post: Result<Option<HubPost>, ConfigError>)

  /**
   * OnServUOChatReceived: the message is first relayed locally (by the
   * remote-admin relay when it is present, else by the channel), whatever
   * the configuration; then it is posted iff its channel is the bound one
   * or the binding is the wildcard.
   */
  function OnServUOChatReceived(cfg: MatterbridgeConfig, rconPresent: bool, from: ChatUser, channel: string, param: string)
    : (e: ChatEffects)
    reads cfg
    ensures e.relay.from == from && e.relay.channel == channel && e.relay.text == param
    ensures e.relay.RconRelay? <==> rconPresent
    ensures CHAT_CHANNEL !in cfg.vars ==> e.post == Failure(MissingKey(CHAT_CHANNEL))
    ensures CHAT_CHANNEL in cfg.vars && !ShouldPost(channel, cfg.vars[CHAT_CHANNEL]) ==> e.post == Success(None)
    ensures CHAT_CHANNEL in cfg.vars && ShouldPost(channel, cfg.vars[CHAT_CHANNEL]) ==>
      match Post(cfg, from.mobile, channel, param)
      case Failure(err) => e.post == Failure(err)
      case Success(p) => e.post == Success(Some(p))
  {
    var relay := if rconPresent then RconRelay(from, channel, param) else ChannelMessage(from, channel, param);
    match cfg.Get(CHAT_CHANNEL)
    case Failure(err) => ChatEffects(relay, Failure(err))
    case Success(chatChannel) =>
      if ShouldPost(channel, chatChannel) then
        match Post(cfg, from.mobile, channel, param)
        case Failure(err) => ChatEffects(relay, Failure(err))
        case Success(p) => ChatEffects(relay, Success(Some(p)))
      else ChatEffects(relay, Success(None))
  }

  /**
   * Under the wildcard every channel's message is posted; under a named
   * binding only the bound channel's are, and a message from any other
   * channel posts nothing and raises nothing.
   */
  lemma OutboundRouting(cfg: MatterbridgeConfig, rconPresent: bool, from: ChatUser, channel: string, param: string)
    requires CHAT_CHANNEL in cfg.vars && TARGET_TOKEN in cfg.vars && TARGET_GATEWAY in cfg.vars
    ensures var e := OnServUOChatReceived(cfg, rconPresent, from, channel, param);
      (e.post.Success? && e.post.value.Some?) <==> (cfg.vars[CHAT_CHANNEL] == WILDCARD || channel == cfg.vars[CHAT_CHANNEL])
    ensures var e := OnServUOChatReceived(cfg, rconPresent, from, channel, param);
      e.post.Success? && e.post.value.Some? ==>
        e.post.value.value.message.text == Some(FormatMessageForMatterbridge(cfg.IsBooleanKeyEnabled(SIMPLE_MESSAGES), from.mobile, channel, param))
  {
  }

  /**
   * The speech handler, which Configure subscribes only when world chat is
   * included: a player's speech is posted with the region and location as
   * its source; other mobiles' speech is ignored.
   */
  function OnSpeech(cfg: MatterbridgeConfig, from: Mobile, speech: string): (r: Result<Option<HubPost>, ConfigError>)
    reads cfg
    ensures !cfg.IsBooleanKeyEnabled(INCLUDE_WORLD_CHAT) || !from.isPlayer ==> r == Success(None)
    ensures cfg.IsBooleanKeyEnabled(INCLUDE_WORLD_CHAT) && from.isPlayer ==>
      match Post(cfg, from, SpeechSource(from), speech)
      case Failure(err) => r == Failure(err)
      case Success(p) => r == Success(Some(p))
  {
    if !cfg.IsBooleanKeyEnabled(INCLUDE_WORLD_CHAT) || !from.isPlayer then Success(None)
    else
      match Post(cfg, from, SpeechSource(from), speech)
      case Failure(err) => Failure(err)
      case Success(p) => Success(Some(p))
  }

  /**
   * BlockGeneralAtLogin, with the connection age in ticks: a join request
   * whose parameter mentions "General" within five seconds of connecting is
   * ignored; every other request is passed on to the normal join.
   */
  datatype JoinAction = IgnoreJoin | JoinChannel(from: ChatUser, channel: string, param: string)

  function BlockGeneralAtLogin(from: ChatUser, channel: string, param: string, connectedTicks: nat): (a: JoinAction)
    ensures a == IgnoreJoin <==> (exists i :: OccursAt(param, "General", i)) && connectedTicks < GENERAL_JOIN_GRACE_TICKS
    ensures a != IgnoreJoin ==> a == JoinChannel(from, channel, param)
  {
    if Contains(param, "General") && connectedTicks < GENERAL_JOIN_GRACE_TICKS then IgnoreJoin
    else JoinChannel(from, channel, param)
  }

  // ---------------------------------------------------------------------
  // Hub messages to players

  /** One message for each member, in membership order. */
  function SendAll(members: seq<ChatUser>, text: string): seq<Delivery>
  {
    seq(|members|, i requires 0 <= i < |members| => Send(members[i], MESSAGE_HUE, text))
  }

  /**
   * The deliveries OnMatterbridgeMessageReceived makes for `m` once the
   * bound channel is known: every current member of the bound channel, or
   * nobody when no channel has that name, or one world broadcast under the
   * wildcard.
   */
  function InboundDeliveries(chatChannel: string, channels: map<string, seq<ChatUser>>, m: InboundMessage): (r: seq<Delivery>)
    ensures forall i :: 0 <= i < |r| ==> r[i].text == InboundToString(m) && r[i].hue == MESSAGE_HUE
    ensures chatChannel == WILDCARD ==> |r| == 1 && r[0].Broadcast? && !r[0].ascii
    ensures chatChannel != WILDCARD && chatChannel !in channels ==> r == []
    ensures chatChannel != WILDCARD && chatChannel in channels ==>
      |r| == |channels[chatChannel]| && forall i :: 0 <= i < |r| ==> r[i].Send? && r[i].to == channels[chatChannel][i]
  {
    if chatChannel != WILDCARD then
      if chatChannel in channels then SendAll(channels[chatChannel], InboundToString(m)) else []
    else [Broadcast(MESSAGE_HUE, false, InboundToString(m))]
  }

  /** The texts sent to `u`, in order. */
  function TextsTo(ds: seq<Delivery>, u: ChatUser): seq<string>
  {
    if ds == [] then []
    else (if ds[0].Send? && ds[0].to == u then [ds[0].text] else []) + TextsTo(ds[1..], u)
  }

  /** The broadcast texts, in order. */
  function Broadcasts(ds: seq<Delivery>): seq<string>
  {
    if ds == [] then []
    else (if ds[0].Broadcast? then [ds[0].text] else []) + Broadcasts(ds[1..])
  }

  lemma {:induction false} TextsToAppend(a: seq<Delivery>, b: seq<Delivery>, u: ChatUser)
    ensures TextsTo(a + b, u) == TextsTo(a, u) + TextsTo(b, u)
  {
    if a != [] {
      assert (a + b)[1..] == a[1..] + b;
      TextsToAppend(a[1..], b, u);
    } else {
      assert a + b == b;
    }
  }

  lemma {:induction false} BroadcastsAppend(a: seq<Delivery>, b: seq<Delivery>)
    ensures Broadcasts(a + b) == Broadcasts(a) + Broadcasts(b)
  {
    if a != [] {
      assert (a + b)[1..] == a[1..] + b;
      BroadcastsAppend(a[1..], b);
    } else {
      assert a + b == b;
    }
  }

  ghost predicate Distinct(members: seq<ChatUser>)
  {
    forall i, j :: 0 <= i < j < |members| ==> members[i] != members[j]
  }

  /** Sending to distinct members gives each member the text exactly once, and nobody else anything. */
  lemma {:induction false} SendAllOncePerMember(members: seq<ChatUser>, text: string, u: ChatUser)
    requires Distinct(members)
    ensures TextsTo(SendAll(members, text), u) == if u in members then [text] else []
    ensures Broadcasts(SendAll(members, text)) == []
  {
    if members != [] {
      var rest := members[1..];
      assert SendAll(members, text)[1..] == SendAll(rest, text);
      SendAllOncePerMember(rest, text, u);
      assert u in members <==> u == members[0] || u in rest;
      assert members[0] !in rest;
    }
  }

  /**
   * Inbound routing for one message: under a named binding each member of
   * the bound channel gets the rendered line exactly once and nothing is
   * broadcast; a missing channel gets nothing; under the wildcard there is
   * exactly one broadcast and no send.
   */
  lemma InboundRouting(chatChannel: string, channels: map<string, seq<ChatUser>>, m: InboundMessage, u: ChatUser)
    ensures chatChannel == WILDCARD ==>
      Broadcasts(InboundDeliveries(chatChannel, channels, m)) == [InboundToString(m)]
      && TextsTo(InboundDeliveries(chatChannel, channels, m), u) == []
    ensures chatChannel != WILDCARD && chatChannel !in channels ==> InboundDeliveries(chatChannel, channels, m) == []
    ensures chatChannel != WILDCARD && chatChannel in channels && Distinct(channels[chatChannel]) ==>
      TextsTo(InboundDeliveries(chatChannel, channels, m), u)
        == (if u in channels[chatChannel] then [InboundToString(m)] else [])
      && Broadcasts(InboundDeliveries(chatChannel, channels, m)) == []
  {
    if chatChannel != WILDCARD && chatChannel in channels && Distinct(channels[chatChannel]) {
      SendAllOncePerMember(channels[chatChannel], InboundToString(m), u);
    }
  }

  /**
   * OnMatterbridgeMessageReceived: reads the binding (which throws when
   * ChatChannel is missing) and makes the deliveries of InboundDeliveries,
   * sending to the bound channel's members one by one.
   */
  method OnMatterbridgeMessageReceived(cfg: MatterbridgeConfig, channels: map<string, seq<ChatUser>>, message: InboundMessage)
    returns (r: Result<seq<Delivery>, ConfigError>)
    ensures CHAT_CHANNEL !in cfg.vars ==> r == Failure(MissingKey(CHAT_CHANNEL))
    ensures CHAT_CHANNEL in cfg.vars ==> r == Success(InboundDeliveries(cfg.vars[CHAT_CHANNEL], channels, message))
  {
    var chatChannel := cfg.Get(CHAT_CHANNEL);
    if chatChannel.Failure? {
      return Failure(chatChannel.error);
    }
    var text := InboundToString(message);
    if chatChannel.value != WILDCARD {
      var sends := [];
      if chatChannel.value in channels {
        var users := channels[chatChannel.value];
        for i := 0 to |users|
          invariant sends == SendAll(users[..i], text)
        {
          sends := sends + [Send(users[i], MESSAGE_HUE, text)];
        }
        assert users[..|users|] == users;
      }
      r := Success(sends);
    } else {
      r := Success([Broadcast(MESSAGE_HUE, false, text)]);
    }
  }

  // ---------------------------------------------------------------------
  // The polling loop

  /**
   * The deliveries for a whole batch: each message's deliveries, in the
   * order received. Under the wildcard that is one broadcast per message;
   * under a named binding only sends, and only to members of the bound
   * channel, so none at all when no channel has that name.
   */
  function BatchDeliveries(chatChannel: string, channels: map<string, seq<ChatUser>>, batch: seq<InboundMessage>): (r: seq<Delivery>)
    ensures chatChannel == WILDCARD ==> |r| == |batch| && forall i :: 0 <= i < |r| ==> r[i].Broadcast?
    ensures chatChannel != WILDCARD ==>
      forall i :: 0 <= i < |r| ==> r[i].Send? && chatChannel in channels && r[i].to in channels[chatChannel]
    ensures chatChannel != WILDCARD && chatChannel !in channels ==> r == []
  {
    if batch == [] then []
    else BatchDeliveries(chatChannel, channels, batch[..|batch| - 1]) + InboundDeliveries(chatChannel, channels, batch[|batch| - 1])
  }

  /** The rendered lines of a batch, in order. */
  function Rendered(batch: seq<InboundMessage>): seq<string>
  {
    seq(|batch|, i requires 0 <= i < |batch| => InboundToString(batch[i]))
  }

  lemma RenderedSnoc(batch: seq<InboundMessage>)
    requires batch != []
    ensures Rendered(batch) == Rendered(batch[..|batch| - 1]) + [InboundToString(batch[|batch| - 1])]
  {
  }

  lemma BatchDeliveriesSnoc(chatChannel: string, channels: map<string, seq<ChatUser>>, batch: seq<InboundMessage>)
    requires batch != []
    ensures BatchDeliveries(chatChannel, channels, batch)
         == BatchDeliveries(chatChannel, channels, batch[..|batch| - 1]) + InboundDeliveries(chatChannel, channels, batch[|batch| - 1])
  {
  }

  /** Under the wildcard the broadcasts are the batch's lines, in the order received, and nobody gets a send. */
  lemma {:induction false} WildcardBatchOrder(channels: map<string, seq<ChatUser>>, batch: seq<InboundMessage>, u: ChatUser)
    ensures Broadcasts(BatchDeliveries(WILDCARD, channels, batch)) == Rendered(batch)
    ensures TextsTo(BatchDeliveries(WILDCARD, channels, batch), u) == []
  {
    if batch != [] {
      var init, last := batch[..|batch| - 1], batch[|batch| - 1];
      WildcardBatchOrder(channels, init, u);
      var chatChannel := WILDCARD;
      var before := BatchDeliveries(WILDCARD, channels, init);
      var now := InboundDeliveries(WILDCARD, channels, last);
      assert now == [Broadcast(MESSAGE_HUE, false, InboundToString(last))];
      TextsToAppend(before, now, u);
      BroadcastsAppend(before, now);
      RenderedSnoc(batch);
      BatchDeliveriesSnoc(chatChannel, channels, batch);
    }
  }

  /**
   * With a named binding, each member of the bound channel sees every line
   * of the batch exactly once and in the order received; non-members see
   * nothing and nothing is broadcast.
   */
  lemma {:induction false} NamedChannelBatchOrder(chatChannel: string, channels: map<string, seq<ChatUser>>, batch: seq<InboundMessage>, u: ChatUser)
    requires chatChannel != WILDCARD && chatChannel in channels && Distinct(channels[chatChannel])
    ensures TextsTo(BatchDeliveries(chatChannel, channels, batch), u)
         == (if u in channels[chatChannel] then Rendered(batch) else [])
    ensures Broadcasts(BatchDeliveries(chatChannel, channels, batch)) == []
  {
    if batch != [] {
      var init, last := batch[..|batch| - 1], batch[|batch| - 1];
      NamedChannelBatchOrder(chatChannel, channels, init, u);
      var before := BatchDeliveries(chatChannel, channels, init);
      var now := InboundDeliveries(chatChannel, channels, last);
      SendAllOncePerMember(channels[chatChannel], InboundToString(last), u);
      TextsToAppend(before, now, u);
      BroadcastsAppend(before, now);
      RenderedSnoc(batch);
      BatchDeliveriesSnoc(chatChannel, channels, batch);
    }
  }

  /** What Listen writes to the console: a failed fetch, or the exception that cut a batch short. */
  datatype LogEntry = FetchFailed(reason: string) | ConfigFailed(error: ConfigError)

  /** What polling leaves behind: deliveries to players and console lines, in order. */
  datatype PollEffects = PollEffects(deliveries: seq<Delivery>, log: seq<LogEntry>)

  function Then(a: PollEffects, b: PollEffects): PollEffects
  {
    PollEffects(a.deliveries + b.deliveries, a.log + b.log)
  }

  /**
   * The result of one fetch as the hub client reports it (a fetch is made
   * with the token, so only when the token could be read), and the channel
   * members at that time.
   */
  datatype Poll = Poll(fetched: Result<seq<InboundMessage>, string>, channels: map<string, seq<ChatUser>>)

  /**
   * One pass of Listen's loop: reading the token throws before any fetch
   * when TargetToken is missing; a failed fetch is logged; a batch is
   * delivered, unless reading the binding throws, which ends the pass with
   * one console line (the binding cannot be missing for some messages only).
   * A pass either delivers or logs, never both, and logs at most one line.
   */
  function PollStep(token: Result<string, ConfigError>, chatChannel: Result<string, ConfigError>, poll: Poll): (r: PollEffects)
    ensures token.Failure? ==> r == PollEffects([], [ConfigFailed(token.error)])
    ensures |r.log| <= 1 && (r.log != [] ==> r.deliveries == [])
    ensures r.log == [] <==>
      token.Success? && poll.fetched.Success? && (poll.fetched.value == [] || chatChannel.Success?)
    ensures token.Success? && poll.fetched.Failure? ==> r.log == [FetchFailed(poll.fetched.error)]
    ensures token.Success? && poll.fetched.Success? && poll.fetched.value == [] ==> r == PollEffects([], [])
    ensures token.Success? && poll.fetched.Success? && chatChannel.Success? ==>
      r.deliveries == BatchDeliveries(chatChannel.value, poll.channels, poll.fetched.value)
    ensures token.Success? && poll.fetched.Success? && poll.fetched.value != [] && chatChannel.Failure? ==>
      r == PollEffects([], [ConfigFailed(chatChannel.error)])
  {
    match token
    case Failure(e) => PollEffects([], [ConfigFailed(e)])
    case Success(_) =>
      match poll.fetched
      case Failure(reason) => PollEffects([], [FetchFailed(reason)])
      case Success(batch) =>
        if batch == [] then PollEffects([], [])
        else
          match chatChannel
          case Failure(e) => PollEffects([], [ConfigFailed(e)])
          case Success(cc) => PollEffects(BatchDeliveries(cc, poll.channels, batch), [])
  }

  /** The passes of Listen over a run of polls, in order: at most one console line each. */
  function Polls(token: Result<string, ConfigError>, chatChannel: Result<string, ConfigError>, polls: seq<Poll>): (r: PollEffects)
    ensures |r.log| <= |polls|
  {
    if polls == [] then PollEffects([], [])
    else Then(Polls(token, chatChannel, polls[..|polls| - 1]), PollStep(token, chatChannel, polls[|polls| - 1]))
  }

  lemma ThenAssociative(x: PollEffects, y: PollEffects, z: PollEffects)
    ensures Then(Then(x, y), z) == Then(x, Then(y, z))
  {
    assert (x.deliveries + y.deliveries) + z.deliveries == x.deliveries + (y.deliveries + z.deliveries);
    assert (x.log + y.log) + z.log == x.log + (y.log + z.log);
  }

  lemma PollsSnoc(token: Result<string, ConfigError>, chatChannel: Result<string, ConfigError>, polls: seq<Poll>)
    requires polls != []
    ensures Polls(token, chatChannel, polls)
         == Then(Polls(token, chatChannel, polls[..|polls| - 1]), PollStep(token, chatChannel, polls[|polls| - 1]))
  {
  }

  lemma {:induction false} PollsAppend(token: Result<string, ConfigError>, chatChannel: Result<string, ConfigError>, a: seq<Poll>, b: seq<Poll>)
    ensures Polls(token, chatChannel, a + b) == Then(Polls(token, chatChannel, a), Polls(token, chatChannel, b))
    decreases |b|
  {
    if b == [] {
      assert a + b == a;
    } else {
      var init, last := b[..|b| - 1], b[|b| - 1];
      assert (a + b)[..|a + b| - 1] == a + init;
      assert (a + b)[|a + b| - 1] == last;
      PollsAppend(token, chatChannel, a, init);
      PollsSnoc(token, chatChannel, a + b);
      PollsSnoc(token, chatChannel, b);
      ThenAssociative(Polls(token, chatChannel, a), Polls(token, chatChannel, init), PollStep(token, chatChannel, last));
    }
  }

  /**
   * A failed fetch costs only its own pass: the polls before and after it
   * are delivered exactly as if it had not happened, and its reason is
   * logged in its place (when the token was readable, as it must be for a
   * fetch to have been made).
   */
  lemma FailedFetchSkipsOnlyItsPoll(token: Result<string, ConfigError>, chatChannel: Result<string, ConfigError>, polls: seq<Poll>, k: nat)
    requires k < |polls| && polls[k].fetched.Failure?
    ensures Polls(token, chatChannel, polls).deliveries
         == Polls(token, chatChannel, polls[..k]).deliveries + Polls(token, chatChannel, polls[k + 1..]).deliveries
    ensures token.Success? ==>
      Polls(token, chatChannel, polls).log
        == Polls(token, chatChannel, polls[..k]).log + [FetchFailed(polls[k].fetched.error)] + Polls(token, chatChannel, polls[k + 1..]).log
  {
    assert polls == polls[..k] + [polls[k]] + polls[k + 1..];
    PollsAppend(token, chatChannel, polls[..k] + [polls[k]], polls[k + 1..]);
    PollsAppend(token, chatChannel, polls[..k], [polls[k]]);
    assert Polls(token, chatChannel, [polls[k]]) == PollStep(token, chatChannel, polls[k]) by {
      assert [polls[k]][..0] == [];
    }
  }

  /**
   * Without a token no poll ever reaches the hub: nothing is delivered, and
   * every pass logs the same missing-key exception.
   */
  lemma {:induction false} MissingTokenDeliversNothing(token: Result<string, ConfigError>, chatChannel: Result<string, ConfigError>, polls: seq<Poll>)
    requires token.Failure?
    ensures Polls(token, chatChannel, polls).deliveries == []
    ensures Polls(token, chatChannel, polls).log == seq(|polls|, i => ConfigFailed(token.error))
  {
    if polls != [] {
      var init := polls[..|polls| - 1];
      MissingTokenDeliversNothing(token, chatChannel, init);
      PollsSnoc(token, chatChannel, polls);
      assert seq(|polls|, i => ConfigFailed(token.error)) == seq(|init|, i => ConfigFailed(token.error)) + [ConfigFailed(token.error)];
    }
  }

  /**
   * The body of Listen's loop for one fetch: the token is read first (a
   * missing one throws before anything is fetched); then each message of
   * the batch goes through OnMatterbridgeMessageReceived in the order
   * received; an exception leaves the rest of the batch undelivered and is
   * logged.
   */
  method PollOnce(cfg: MatterbridgeConfig, poll: Poll) returns (e: PollEffects)
    ensures e == PollStep(cfg.Get(TARGET_TOKEN), cfg.Get(CHAT_CHANNEL), poll)
  {
    var token := cfg.Get(TARGET_TOKEN);
    if token.Failure? {
      return PollEffects([], [ConfigFailed(token.error)]);
    }
    match poll.fetched
    case Failure(reason) =>
      e := PollEffects([], [FetchFailed(reason)]);
    case Success(batch) =>
      var ds := [];
      for i := 0 to |batch|
        invariant CHAT_CHANNEL in cfg.vars ==> ds == BatchDeliveries(cfg.vars[CHAT_CHANNEL], poll.channels, batch[..i])
        invariant CHAT_CHANNEL !in cfg.vars ==> ds == [] && i == 0
      {
        var r := OnMatterbridgeMessageReceived(cfg, poll.channels, batch[i]);
        if r.Failure? {
          return PollEffects(ds, [ConfigFailed(r.error)]);
        }
        assert batch[..i + 1][..i] == batch[..i];
        BatchDeliveriesSnoc(cfg.vars[CHAT_CHANNEL], poll.channels, batch[..i + 1]);
        ds := ds + r.value;
      }
      assert batch[..|batch|] == batch;
      e := PollEffects(ds, []);
  }

  /**
   * Listen over a finite run of polls: every poll is made, whatever became
   * of the ones before it, and the effects follow one another in order.
   */
  method Listen(cfg: MatterbridgeConfig, polls: seq<Poll>) returns (e: PollEffects)
    ensures e == Polls(cfg.Get(TARGET_TOKEN), cfg.Get(CHAT_CHANNEL), polls)
  {
    e := PollEffects([], []);
    for k := 0 to |polls|
      invariant e == Polls(cfg.Get(TARGET_TOKEN), cfg.Get(CHAT_CHANNEL), polls[..k])
    {
      var step := PollOnce(cfg, polls[k]);
      assert polls[..k + 1][..k] == polls[..k];
      e := Then(e, step);
    }
    assert polls[..|polls|] == polls;
  }
}

=== FILE: text.dfy ===
/**
 * The few .NET string operations the relay relies on, written out:
 * String.Split(char), ordinal prefix and substring tests, ToLower on the
 * ASCII letters, and the decimal rendering of an Int32 inside string
 * concatenation. Each comes with the inverse or the independent
 * characterisation that the rest of the model uses.
 */
module Text {
  import opened Wrappers

  /** Number of occurrences of `c` in `s`. */
  function Occurrences(s: string, c: char): nat
  {
    if s == [] then 0 else (if s[0] == c then 1 else 0) + Occurrences(s[1..], c)
  }

  /** Joins the parts with `sep` between consecutive ones (the inverse of Split). */
  function Join(parts: seq<string>, sep: char): string
    requires |parts| > 0
  {
    if |parts| == 1 then parts[0] else parts[0] + [sep] + Join(parts[1..], sep)
  }

  /**
   * String.Split(sep): the maximal runs of text between occurrences of `sep`,
   * empty runs included, so that there is always one part more than there
   * are separators.
   */
  function Split(s: string, sep: char): (parts: seq<string>)
    ensures |parts| == Occurrences(s, sep) + 1
    ensures forall i :: 0 <= i < |parts| ==> sep !in parts[i]
    ensures Join(parts, sep) == s
  {
    if s == [] then [""]
    else
      var rest := Split(s[1..], sep);
      assert s == [s[0]] + s[1..];
      if s[0] == sep then
        assert ([""] + rest)[1..] == rest;
        [""] + rest
      else
        var parts := [[s[0]] + rest[0]] + rest[1..];
        assert |rest| > 1 ==> parts[1..] == rest[1..];
        parts
  }

  /** A text free of the separator is a single part. */
  lemma {:induction false} SplitWithoutSeparator(a: string, sep: char)
    requires sep !in a
    ensures Split(a, sep) == [a]
  {
    if a != [] {
      SplitWithoutSeparator(a[1..], sep);
      assert a == [a[0]] + a[1..];
    }
  }

  /** The first separator ends the first part. */
  lemma {:induction false} SplitAtFirstSeparator(a: string, sep: char, b: string)
    requires sep !in a
    ensures Split(a + [sep] + b, sep) == [a] + Split(b, sep)
  {
    var s := a + [sep] + b;
    if a == [] {
      assert s[1..] == b;
    } else {
      assert s[1..] == a[1..] + [sep] + b;
      SplitAtFirstSeparator(a[1..], sep, b);
      assert a == [a[0]] + a[1..];
    }
  }

  /** Split undoes Join when no part contains the separator. */
  lemma {:induction false} SplitJoin(parts: seq<string>, sep: char)
    requires |parts| > 0
    requires forall i :: 0 <= i < |parts| ==> sep !in parts[i]
    ensures Split(Join(parts, sep), sep) == parts
  {
    if |parts| == 1 {
      SplitWithoutSeparator(parts[0], sep);
    } else {
      SplitJoin(parts[1..], sep);
      SplitAtFirstSeparator(parts[0], sep, Join(parts[1..], sep));
      assert parts == [parts[0]] + parts[1..];
    }
  }

  /** Join of two and of three parts, spelled out. */
  lemma JoinTwo(a: string, b: string, sep: char)
    ensures Join([a, b], sep) == a + [sep] + b
  {
    assert [a, b][1..] == [b];
  }

  lemma JoinThree(a: string, b: string, c: string, sep: char)
    ensures Join([a, b, c], sep) == a + [sep] + b + [sep] + c
  {
    assert [a, b, c][1..] == [b, c];
    JoinTwo(b, c, sep);
  }

  lemma JoinFour(a: string, b: string, c: string, d: string, sep: char)
    ensures Join([a, b, c, d], sep) == a + [sep] + b + [sep] + c + [sep] + d
  {
    assert [a, b, c, d][1..] == [b, c, d];
    JoinThree(b, c, d, sep);
  }

  /** String.StartsWith(prefix), compared ordinally. */
  predicate StartsWith(s: string, prefix: string)
  {
    prefix <= s
  }

  /** `s` ends with `suffix`. */
  predicate EndsWith(s: string, suffix: string)
  {
    |suffix| <= |s| && s[|s| - |suffix|..] == suffix
  }

  /** `t` occurs in `s` starting at index `i`. */
  predicate OccursAt(s: string, t: string, i: int)
  {
    0 <= i && i + |t| <= |s| && s[i..i + |t|] == t
  }

  /** An occurrence of `t` in a non-empty `s` is at its start or inside its tail. */
  lemma OccursAtStartOrInTail(s: string, t: string)
    requires s != []
    ensures (exists i :: OccursAt(s, t, i)) <==> OccursAt(s, t, 0) || exists i :: OccursAt(s[1..], t, i)
  {
    if exists i :: OccursAt(s[1..], t, i) {
      var i :| OccursAt(s[1..], t, i);
      assert s[1..][i..i + |t|] == s[i + 1..i + 1 + |t|];
      assert OccursAt(s, t, i + 1);
    }
    if exists i :: OccursAt(s, t, i) {
      var i :| OccursAt(s, t, i);
      if i != 0 {
        assert s[1..][i - 1..i - 1 + |t|] == s[i..i + |t|];
        assert OccursAt(s[1..], t, i - 1);
      }
    }
  }

  /**
   * String.Contains(t), compared ordinally: a scan from the left, which
   * succeeds exactly when `t` occurs at some index of `s`.
   */
  function Contains(s: string, t: string): (b: bool)
    ensures b <==> exists i :: OccursAt(s, t, i)
    decreases |s|
  {
    if |t| <= |s| && s[..|t|] == t then
      assert OccursAt(s, t, 0);
      true
    else if s == [] then
      assert forall i :: !OccursAt(s, t, i);
      false
    else
      OccursAtStartOrInTail(s, t);
      Contains(s[1..], t)
  }

  /** Char.ToLower restricted to what matters here: the ASCII capitals. */
  function LowerChar(c: char): char
  {
    if 'A' <= c <= 'Z' then (c as int - 'A' as int + 'a' as int) as char else c
  }

  /** `s` is "true" in some mix of upper and lower case. */
  predicate SpellsTrue(s: string)
  {
    && |s| == 4
    && (s[0] == 't' || s[0] == 'T')
    && (s[1] == 'r' || s[1] == 'R')
    && (s[2] == 'u' || s[2] == 'U')
    && (s[3] == 'e' || s[3] == 'E')
  }

  /**
   * String.ToLower, letter by letter: no capital is left, and the result is
   * "true" exactly for the sixteen spellings of "true".
   */
  function Lower(s: string): (r: string)
    ensures |r| == |s|
    ensures forall i :: 0 <= i < |r| ==> !('A' <= r[i] <= 'Z')
    ensures r == "true" <==> SpellsTrue(s)
  {
    var r := seq(|s|, i requires 0 <= i < |s| => LowerChar(s[i]));
    assert SpellsTrue(s) ==> r[0] == 't' && r[1] == 'r' && r[2] == 'u' && r[3] == 'e';
    assert r == "true" ==>
      && r[0] == LowerChar(s[0]) == 't' && r[1] == LowerChar(s[1]) == 'r'
      && r[2] == LowerChar(s[2]) == 'u' && r[3] == LowerChar(s[3]) == 'e';
    r
  }

  predicate IsDigit(c: char)
  {
    '0' <= c <= '9'
  }

  predicate AllDigits(s: string)
  {
    forall i :: 0 <= i < |s| ==> IsDigit(s[i])
  }

  function DigitChar(d: nat): char
    requires d < 10
  {
    ('0' as int + d) as char
  }

  /** Decimal digits of a natural number, most significant first, no leading zeros. */
  function NatToString(n: nat): (s: string)
    ensures |s| > 0 && AllDigits(s)
    ensures s[0] == '0' <==> n == 0
    ensures n == 0 ==> s == "0"
  {
    if n < 10 then [DigitChar(n)] else NatToString(n / 10) + [DigitChar(n % 10)]
  }

  /**
   * Int32.ToString() as string concatenation uses it, as the invariant
   * culture renders it: a '-' sign exactly for a negative number, then the
   * digits with no leading zero (zero itself is "0"). The text reads back
   * as `n`.
   */
  function IntToString(n: int): (s: string)
    ensures |s| > 0 && forall i :: 0 <= i < |s| ==> IsDigit(s[i]) || (i == 0 && s[i] == '-')
    ensures ParseInt(s) == Some(n)
    ensures s[0] == '-' <==> n < 0
    ensures s[0] == '-' ==> |s| > 1 && s[1] != '0'
    ensures s[0] == '0' ==> s == "0"
  {
    if n < 0 then
      NatToStringValue(-n);
      var s := "-" + NatToString(-n);
      assert s[1..] == NatToString(-n);
      s
    else
      NatToStringValue(n);
      NatToString(n)
  }

  /** The value of a run of decimal digits. */
  function DigitsValue(s: string): nat
    requires AllDigits(s)
  {
    if s == [] then 0 else DigitsValue(s[..|s| - 1]) * 10 + (s[|s| - 1] as int - '0' as int)
  }

  /** Reads back an integer written by IntToString: an optional minus, then digits. */
  function ParseInt(s: string): Option<int>
  {
    if |s| > 1 && s[0] == '-' && AllDigits(s[1..]) then Some(0 - DigitsValue(s[1..]) as int)
    else if |s| > 0 && AllDigits(s) then Some(DigitsValue(s) as int)
    else None
  }

  lemma {:induction false} NatToStringValue(n: nat)
    ensures DigitsValue(NatToString(n)) == n
  {
    if n >= 10 {
      NatToStringValue(n / 10);
      var s := NatToString(n);
      assert s[..|s| - 1] == NatToString(n / 10);
    }
  }

  /** A rendered integer holds nothing but digits and a leading minus sign. */
  lemma IntToStringCharacters(n: int, c: char)
    requires c != '-' && !IsDigit(c)
    ensures c !in IntToString(n)
  {
  }
}

=== FILE: wrappers.dfy ===
/** Option and Result: the null references and the exceptions of the relay. */
module Wrappers {

  /** A value that may be absent (a C# null reference). */
  datatype Option<+T> = None | Some(value: T)

  /** The outcome of an operation that may throw: a value or the error it raised. */
  datatype Result<+R, +E> = Success(value: R) | Failure(error: E)
}
